=== FILE: README.md ===
# HDMI-CEC HAL: a reference model of the documented contract

The HDMI-CEC HAL (`include/hdmi_cec_driver.h`) is a C header. It declares the calls through which a
platform exposes one CEC bus connection to its client:

- open and close an instance;
- claim, release, set and query logical addresses;
- report the physical address;
- register one receive callback and one transmit callback;
- transmit a raw CEC packet, synchronously or asynchronously.

The repository ships no implementation. The header's comments define the behaviour precisely, so this
project is a Dafny reference model of that documented contract:

- `cec_types.dfy` (`CecTypes`): bytes, 4-bit logical addresses, device roles, the status enumeration
  with its C values, and the three transmit results.
- `frame_codec.dfy` (`FrameCodec`): the packet layout drawn in the header's block diagram (lines
  302-313). This covers the header byte `dest << 4 | src` and the opcode/operand data block. It also
  covers the per-block EOM and ACK bits the HAL inserts on transmit and strips on receive, and the start
  bit that precedes every header block on the CEC bus. A received block stream is cut into messages,
  each running from a start bit to its EOM. A frame cut short before its EOM block is truncated and is
  discarded, so it never reaches the receive callback and never merges with the next message.
- `physical_address.dfy` (`PhysicalAddress`): the 32-bit packing of the physical address, written
  with the header's bit operations on `bv32`.
- `session.dfy` (`Session`): the instance as an immutable state. It is `Closed(role)`, or `Opened`
  with a device, a handle, the claimed address set, the physical address and the two callbacks. Every
  API call is a pure transition returning a status and the new state. Whatever the bus or the platform
  decides is an explicit parameter:
  - the answer to a POLL;
  - the outcome of a transmission;
  - the handle and the addresses found while opening;
  - the maximum frame length.
- `receive.dfy` (`Receive`): the receive filter (broadcast, or a claimed destination) and dispatch of
  received packets to the receive callback.
- `session_properties.dfy` (`SessionProperties`): lemmas that relate several calls.

Logical address 15 as a destination is the broadcast address. This follows the logical-address table in
section 10.2 of the HDMI 1.4 CEC supplement.

Choices where the header leaves the behaviour open:

- **Calls before open.** Every call documents "HdmiCecOpen() must be called before" as a
  precondition. The model answers such calls with `INVALID_STATE`, the enumeration's code for it,
  instead of assuming them away. There are two exceptions. `Close` returns `SUCCESS` before open,
  its only documented result. `GetPhysicalAddress` returns nothing, so before open it reports no
  address.
- **Header nibble order.** The block diagram at lines 302-313 puts the destination in the high
  nibble and the initiator in the low one (`Dest | src`). The model follows that diagram. Section
  6.1 of the HDMI 1.4 CEC supplement, which line 300 cites for the format, orders them the other
  way: initiator in bits 7-4, destination in bits 3-0. So the diagram contradicts the standard it
  cites, and a HAL that passes raw CEC bytes would put the initiator first.
- **Wrong handle.** A handle that is not the open instance's gives `INVALID_ARGUMENT`.
- **Null out-pointers.** These are boolean parameters and give `INVALID_ARGUMENT`.
- **Close.** The only documented result of `HdmiCecClose` is `SUCCESS`, so the model's `Close` takes
  no handle and always uninitialises the instance.
- **HdmiCecTx status.** `HdmiCecTx` lists the transmit results both as return values and as the
  `*result` output. The model returns `SUCCESS` and puts the result class in `result`.
- **HdmiCecSetLogicalAddress failures.** Its documented return value is only `SUCCESS`. A list entry
  outside 0..15 is refused with `INVALID_ARGUMENT`. An entry the platform cannot set (a parameter) is
  refused with `LOGICALADDRESS_UNAVAILABLE`. Either way nothing changes.
- **Sink address.** A sink reports `0x0` when it holds `0x0`, and `0x0F` otherwise.
- **Source address.** A source reports the address discovery gave it at open. The model holds that
  address as a `SourceAddress`, which lies strictly between 0x00 and 0x0F.
- **Source claims.** A source opens holding exactly the address discovery gave it. It acknowledges POLLs to that address and forwards packets sent to it.
- **HdmiCecSetLogicalAddress on a source.** The call checks no role, so it replaces a source's claimed set like a sink's. A source can drop its discovered address that way, or claim 0x0, which `HdmiCecAddLogicalAddress` refuses it (lines 212-213). `HdmiCecGetLogicalAddress` still reports the discovered address, because the header ties that report to the device type, not to the claimed set.
- **Transmit-callback delivery.** Lines 347-349 say the asynchronous result reaches the transmit
  callback. Lines 406-407 say it reaches the receive callback (`HdmiCecRxCallback_t`). The model
  follows the transmit-callback reading, because the transmit callback's own signature carries a result.

## Model

| member | source | states |
|---|---|---|
| CecTypes.Code | include/hdmi_cec_driver.h:80-89 | each status has its C enumeration value 0..7, and only SUCCESS is 0 |
| CecTypes.StatusOfRoundTrip | include/hdmi_cec_driver.h:80-89 | every integer 0..7 names one status whose code is that integer |
| CecTypes.StatusOf | include/hdmi_cec_driver.h:80-89 | reading a C status integer gives a status exactly for 0..7 and nothing for any other integer |
| CecTypes.CodeRoundTrip | include/hdmi_cec_driver.h:80-89 | a status's code reads back as the same status, so no two statuses share a code |
| CecTypes.Classify | include/hdmi_cec_driver.h:382-385 | a bus outcome maps to exactly one of SENT_AND_ACKD, SENT_BUT_NOT_ACKD and SENT_FAILED, each iff the matching outcome |
| FrameCodec.HeaderByte | include/hdmi_cec_driver.h:302-313 | the header byte's value is 16 times the destination plus the initiator, so the destination fills the high nibble and the initiator the low one |
| FrameCodec.DestinationOf | include/hdmi_cec_driver.h:302-313 | the destination is the header byte's high nibble |
| FrameCodec.InitiatorOf | include/hdmi_cec_driver.h:302-313 | the initiator is the header byte's low nibble |
| FrameCodec.HeaderRoundTrip | include/hdmi_cec_driver.h:302-313 | decoding the header byte (dest shifted left 4, OR src) recovers the destination and the initiator |
| FrameCodec.HeaderFromParts | include/hdmi_cec_driver.h:302-313 | every byte is the header of its own destination and initiator nibbles |
| FrameCodec.Encode | include/hdmi_cec_driver.h:302-308 | a packet's buffer is one byte longer than its data block, its first byte names the destination and the initiator, and the rest is the data block unchanged |
| FrameCodec.Decode | include/hdmi_cec_driver.h:302-308 | a buffer reads as a packet exactly when it holds at least the header byte |
| FrameCodec.DecodeEncode | include/hdmi_cec_driver.h:299-314 | a packet written as header block plus data block reads back as the same packet |
| FrameCodec.EncodeDecode | include/hdmi_cec_driver.h:299-314 | every non-empty buffer is the encoding of the packet it decodes to |
| FrameCodec.PollMessage | include/hdmi_cec_driver.h:215-218 | the POLL has the requested address as initiator and destination and an empty data block, so it is a POLL with no opcode |
| FrameCodec.Frame | include/hdmi_cec_driver.h:319-320 | transmit framing keeps every byte, puts the start bit before the header block only, sets EOM on the last block only and inserts an ACK bit in every block |
| FrameCodec.Strip | include/hdmi_cec_driver.h:316-317 | removing the start, EOM and ACK bits keeps one byte per block, each block's information byte in order |
| FrameCodec.FrameIsComplete | include/hdmi_cec_driver.h:319-320 | the transmit framing of a buffer is one complete message (start bit on its first block only, EOM on its last block only) iff the buffer is non-empty |
| FrameCodec.StripFrame | include/hdmi_cec_driver.h:316-320 | stripping the inserted EOM/ACK bits gives back exactly the transmitted buffer |
| FrameCodec.Reassemble | include/hdmi_cec_driver.h:316-317 | a received message is delivered iff it is one complete frame (start bit first, EOM last, neither elsewhere) within the maximum length, and then with its start/EOM/ACK bits removed |
| FrameCodec.ReassembleFrame | include/hdmi_cec_driver.h:316-320 | framing then reassembling returns the buffer iff it is non-empty and within the maximum length |
| FrameCodec.Acknowledged | include/hdmi_cec_driver.h:319-320 | a follower acknowledging every block leaves bytes, start and EOM bits as sent and drives every ACK bit to 0 |
| FrameCodec.ReassembleIgnoresAck | include/hdmi_cec_driver.h:316-317 | two streams that differ only in their ACK bits reassemble to the same result |
| FrameCodec.PacketOverTheBus | include/hdmi_cec_driver.h:299-320 | destination, initiator, opcode and operands of a packet survive framing and deframing, whatever ACK bits the followers drove on the bus |
| FrameCodec.RunLength | include/hdmi_cec_driver.h:94 | a run starts at the head of the stream, holds no start bit after its first block and no EOM before its last, and ends at an EOM, before a start bit or at the end of the stream |
| FrameCodec.Messages | include/hdmi_cec_driver.h:94 | every message cut from the received stream is a complete frame occurring in the stream as consecutive blocks; a stream that is one complete frame is one message, and a stream with no EOM yields none |
| FrameCodec.MessagesOfFrameAll | include/hdmi_cec_driver.h:94 | packets sent back to back are cut back into the same packets, one per message, in order |
| FrameCodec.FrameThenRest | include/hdmi_cec_driver.h:94 | a complete frame at the head of a stream is received as one message, whatever follows it |
| FrameCodec.CutShortDropped | include/hdmi_cec_driver.h:94 | blocks cut short before their EOM, followed by a start bit or the end of the stream, are discarded and change nothing that follows |
| FrameCodec.MessagesWithAborted | include/hdmi_cec_driver.h:94 | complete frames, each preceded by a transmission cut short before its EOM, are received as exactly those frames, one message per buffer, in order |
| FrameCodec.RunLengthIgnoresAck | include/hdmi_cec_driver.h:94 | the run at the head of a stream has the same length whatever its ACK bits are |
| FrameCodec.CompleteIgnoresAck | include/hdmi_cec_driver.h:316-317 | whether blocks form a complete frame does not depend on their ACK bits |
| FrameCodec.MessagesIgnoreAck | include/hdmi_cec_driver.h:94 | two streams that differ only in their ACK bits are cut into equally many messages that differ only in their ACK bits |
| FrameCodec.MessagesOfReceived | include/hdmi_cec_driver.h:94 | a received stream of packets, each possibly after a truncated transmission and acknowledged in any way, is cut into one message per packet, in order, each the packet's framing up to its ACK bits |
| PhysicalAddress.Pack | include/hdmi_cec_driver.h:193-195 | the packing puts each nibble of the two address bytes in the low half of its own byte of the result |
| PhysicalAddress.Unpack | include/hdmi_cec_driver.h:194 | the two bytes read back from a packed address have as nibbles the low nibbles of its four bytes, most significant first |
| PhysicalAddress.UnpackPack | include/hdmi_cec_driver.h:194 | unpacking a packed address returns both bytes unchanged |
| PhysicalAddress.PackUnpack | include/hdmi_cec_driver.h:194 | every value with only low nibbles set is the packing of some address |
| PhysicalAddress.PackInjective | include/hdmi_cec_driver.h:194 | two different addresses never pack to the same integer |
| PhysicalAddress.ExampleAsWritten | include/hdmi_cec_driver.h:194 | the example operands 0x04, 0x04 pack to 0x00040004, which reads 0.4.0.4 |
| PhysicalAddress.ExampleCorrected | include/hdmi_cec_driver.h:194 | the address 4.4.4.4 (bytes 0x44, 0x44) packs with a 4 in every byte |
| Session.CallbackOf | include/hdmi_cec_driver.h:322-323 | a null function pointer disables the callback; otherwise the pointer and data are installed together |
| Session.Rejection | include/hdmi_cec_driver.h:80-89 | a call that does not reach the opened instance is answered INVALID_STATE iff the instance is closed, and INVALID_ARGUMENT iff it is open under another handle |
| Session.AcksPoll | include/hdmi_cec_driver.h:211-244 | the instance acknowledges a POLL to an address exactly when it holds that address in its claimed set; every "ACKs POLLs" below means "holds the address" |
| Session.Open | include/hdmi_cec_driver.h:112-133 | open succeeds again on an opened instance without changing it; a null handle pointer gives INVALID_ARGUMENT; a source without a discovered address gives LOGICALADDRESS_UNAVAILABLE; a sink opens with no logical address; a source opens holding exactly its discovered address |
| Session.Close | include/hdmi_cec_driver.h:135-154 | close always returns SUCCESS and leaves an uninitialised instance of the same role |
| Session.AddLogicalAddress | include/hdmi_cec_driver.h:206-238 | only a sink adding 0x0 sends the POLL (0x0 to 0x0, no data); not ACK'd gives SUCCESS and claims 0x0; ACK'd gives LOGICALADDRESS_UNAVAILABLE; a failed send gives SENT_FAILED; any other address or a source gives INVALID_ARGUMENT; every non-SUCCESS leaves the state unchanged |
| Session.RemoveLogicalAddress | include/hdmi_cec_driver.h:240-265 | a sink releasing 0x0 succeeds whether or not it held it, and no longer ACKs POLLs to it; other values or a source give INVALID_ARGUMENT with no change |
| Session.SetLogicalAddress | include/hdmi_cec_driver.h:156-185 | on SUCCESS the claimed set is exactly the list; success iff every entry can be set; an entry outside 0..15 gives INVALID_ARGUMENT, and an entry the platform cannot set gives LOGICALADDRESS_UNAVAILABLE, with nothing changed; a null list clears the set |
| Session.GetLogicalAddress | include/hdmi_cec_driver.h:267-293 | a sink reports 0x0F iff it holds no 0x0; a source reports its discovered address, strictly between 0x00 and 0x0F; a null out-pointer gives INVALID_ARGUMENT, and a call before open gives INVALID_STATE |
| Session.GetPhysicalAddress | include/hdmi_cec_driver.h:187-204 | a call that reaches the opened instance reports the physical address acquired when it was opened, and any other call reports nothing |
| Session.SetRxCallback | include/hdmi_cec_driver.h:295-342 | the receive callback and its data are replaced and nothing else changes |
| Session.SetTxCallback | include/hdmi_cec_driver.h:344-368 | the transmit callback and its data are replaced and nothing else changes |
| Session.Transmit | include/hdmi_cec_driver.h:370-401 | a valid packet is framed onto the bus intact and its result is the one class matching the bus outcome; a call before open gives INVALID_STATE, and a wrong handle, null result pointer or empty or oversized packet gives INVALID_ARGUMENT, sending nothing |
| Session.TransmitAsync | include/hdmi_cec_driver.h:403-424 | a valid packet is framed onto the bus and exactly one transmit-callback notice with the classified result follows iff a transmit callback is registered; a call before open gives INVALID_STATE, and a wrong handle or empty or oversized packet gives INVALID_ARGUMENT, sending nothing |
| Receive.Accepts | include/hdmi_cec_driver.h:160-168 | an opened instance forwards a packet iff its destination is broadcast or one of the claimed addresses; a closed one forwards nothing |
| Receive.Wanted | include/hdmi_cec_driver.h:160-168 | reference filter: the packets of a sequence, in order, that are non-empty, within the maximum length and addressed to broadcast or a claimed address |
| Receive.Delivered | include/hdmi_cec_driver.h:91-101 | every delivered buffer is one whole received message, reassembled, addressed to broadcast or a claimed address |
| Receive.Dispatch | include/hdmi_cec_driver.h:91-101 | each receive-callback invocation carries the registered fn, data and handle and one complete accepted packet reassembled from one message of the stream; none happen when closed or with no callback |
| Receive.DeliveredOfFrames | include/hdmi_cec_driver.h:160-168 | messages that are the frames of some packets, up to their ACK bits, deliver exactly what the reference filter Wanted keeps, in order |
| Receive.DispatchOfSentPackets | include/hdmi_cec_driver.h:160-168 | packets sent on the bus, whatever ACK bits the followers drove and whatever truncated transmissions came before each, reach the callback one per invocation, in order, and exactly those Wanted keeps |
| Receive.AcknowledgedPacketDelivered | include/hdmi_cec_driver.h:162-163 | a packet to a claimed address, acknowledged block by block by this instance, reaches the callback exactly once and intact |
| Receive.BroadcastAfterTruncated | include/hdmi_cec_driver.h:165-166 | a broadcast that arrives complete after a header block cut short is delivered alone and intact, even with no address claimed |
| Receive.TruncatedNotGlued | include/hdmi_cec_driver.h:94 | a truncated header and data block followed by the complete broadcast deliver only the complete packet, never the truncated blocks glued onto it |
| Receive.OnlyBroadcastWhenUnclaimed | include/hdmi_cec_driver.h:168 | with no logical address set only broadcast packets are forwarded |
| Receive.UnclaimedNeverDelivered | include/hdmi_cec_driver.h:161-166 | a packet for an address neither claimed nor broadcast never reaches the receive callback |
| SessionProperties.OpenIsIdempotent | include/hdmi_cec_driver.h:115-116 | a second open returns SUCCESS, the same handle and the same state |
| SessionProperties.CloseIsIdempotent | include/hdmi_cec_driver.h:138-140 | a second close returns SUCCESS and changes nothing; a closed instance rejects address queries with any handle, acknowledges no POLL and delivers nothing |
| SessionProperties.FreshSinkIsUnregistered | include/hdmi_cec_driver.h:271-272 | a just-opened sink reports 0x0F |
| SessionProperties.OpenedSourceReportsDiscovered | include/hdmi_cec_driver.h:273-274 | an opened source reports its discovered address, strictly between 0x00 and 0x0F |
| SessionProperties.AddThenGet | include/hdmi_cec_driver.h:209-211 | after a successful add the sink reports 0x0, ACKs POLLs to 0x0 and forwards packets for 0x0 |
| SessionProperties.RemoveIsIdempotent | include/hdmi_cec_driver.h:245 | a second remove returns SUCCESS and changes nothing |
| SessionProperties.RemoveThenGet | include/hdmi_cec_driver.h:243-244 | after a remove the sink reports 0x0F, ACKs no POLL to 0x0 and forwards no packet for 0x0 |
| SessionProperties.AddThenRemove | include/hdmi_cec_driver.h:240-244 | add followed by remove leaves the instance as before, without 0x0 |
| SessionProperties.AddUnavailableKeepsAddress | include/hdmi_cec_driver.h:228 | an ACK'd POLL leaves the reported logical address as it was |
| SessionProperties.SourceCannotClaim | include/hdmi_cec_driver.h:212-213 | on a source, add and remove return INVALID_ARGUMENT and change nothing, whatever the address |
| SessionProperties.SetNullClears | include/hdmi_cec_driver.h:168-172 | after a null list a sink reports 0x0F and receives only broadcast |
| SessionProperties.RxCallbackReplaces | include/hdmi_cec_driver.h:322-323 | registering a receive callback twice is the same as registering the second one |
| SessionProperties.TxCallbackReplaces | include/hdmi_cec_driver.h:344-349 | registering a transmit callback twice is the same as registering the second one |
| SessionProperties.NullRxCallbackDisables | include/hdmi_cec_driver.h:323 | after a null receive callback no packet is delivered |
| SessionProperties.NullTxCallbackDropsResult | include/hdmi_cec_driver.h:347-349 | with a null transmit callback an asynchronous result notifies nobody |
| SessionProperties.OpenThenPhysicalAddress | include/hdmi_cec_driver.h:190-195 | the reported physical address unpacks to the two bytes discovered when opening |
| SessionProperties.ClaimThenTransmit | include/hdmi_cec_driver.h:225 | open, a claim on a silent bus, then a transmit a follower ACKs all succeed, and the result is SENT_AND_ACKD with the packet intact on the wire |
| SessionProperties.ClaimWhileTaken | include/hdmi_cec_driver.h:228 | a claim while another device holds 0x0 returns LOGICALADDRESS_UNAVAILABLE and the sink holds nothing |

## Left out

- Callback blocking and mutual exclusion (lines 325 and 351) and the thread-safety warnings. These are concurrency behaviour; every call here is one atomic transition.
- The bus transceiver: signal timing, arbitration, collisions and how an ACK is detected. The outcome of a POLL or a transmission is a parameter.
- Asynchronous timing of `HdmiCecTxAsync`. The model records only that exactly one transmit-callback notice follows when a transmit callback is registered.
- Callback identities: the `void *` data and the function pointers are natural numbers. Pointer 0 is null.
- The `devType` argument of `HdmiCecGetLogicalAddress` beyond the sink/source role. The role is fixed by the platform when the instance is opened.
- The `num` argument of `HdmiCecSetLogicalAddress`. The list is a sequence, and its length plays `num`.
- Session.Transmit, Session.TransmitAsync: the `buf` and `len` arguments are one byte sequence, whose length plays `len`. A null `buf`, a negative `len` and a `len` that disagrees with the buffer cannot be expressed, so the model says nothing about how the HAL answers them.
- The maximum frame length. The header gives no number, so it is a parameter `maxLen`.
- The precondition of `HdmiCecTx` and `HdmiCecTxAsync` that the callbacks "should" be registered first. It is advice, not a checked condition, so transmissions do not depend on it.
- `GENERAL_ERROR`. No call documents when it is returned, so no transition produces it.

## Findings

| source | as written | input that shows it | evidently intended | confidence | as-written member | corrected member |
|---|---|---|---|---|---|---|
| include/hdmi_cec_driver.h:194 | the example for the maximum address 4.4.4.4 applies the packing to the operands `0x04` and `0x04` | packing 0x04, 0x04 gives 0x00040004, whose nibbles read 0.4.0.4 | the bus bytes of 4.4.4.4 are 0x44 and 0x44, which pack to 0x04040404 | high; not executed | PhysicalAddress.ExampleAsWritten | PhysicalAddress.ExampleCorrected |

=== FILE: cec_types.dfy ===
/** Shared vocabulary of the HDMI-CEC HAL: bytes, logical addresses, device
    roles, the status codes every call returns, and the outcome of one bus
    transmission as the transceiver reports it. */
module CecTypes {

  /** One byte of a CEC packet as it crosses the HAL interface. */
  type Byte = bv8

  /** A 4-bit CEC logical address. */
  type LogicalAddress = a: int | 0x0 <= a <= 0xF

  /** The addresses a source device may be given by discovery: strictly
      between 0x00 and 0x0F, so never the TV address nor the broadcast one. */
  type SourceAddress = a: int | 0x0 < a < 0xF witness 0x4

  /** A HAL instance handle; the HAL only ever hands out non-zero values. */
  type Handle = h: int | h != 0 witness 1

  /** Logical address 15 as a destination: the broadcast address
      (logical-address table, section 10.2 of the HDMI 1.4 CEC supplement). */
  const Broadcast: LogicalAddress := 0xF

  /** What HdmiCecGetLogicalAddress reports for a sink that holds no address. */
  const Unregistered: LogicalAddress := 0xF

  /** The only value HdmiCecAddLogicalAddress and HdmiCecRemoveLogicalAddress accept. */
  const SinkAddress: LogicalAddress := 0x0

  datatype Option<T> = None | Some(value: T)

  /** Whether the platform was built as a sink (TV) or a source (player, tuner, ...). */
  datatype Role = Sink | Source

  /** The error-code enumeration of the HAL. */
  datatype Status =
    | Success
    | SentAndAckd
    | SentButNotAckd
    | SentFailed
    | InvalidState
    | InvalidArgument
    | LogicalAddressUnavailable
    | GeneralError

  /** The integer value each status has in the C enumeration. */
  function Code(st: Status): (c: int)
    ensures 0 <= c <= 7
    ensures c == 0 <==> st == Success
  {
    match st
    case Success => 0
    case SentAndAckd => 1
    case SentButNotAckd => 2
    case SentFailed => 3
    case InvalidState => 4
    case InvalidArgument => 5
    case LogicalAddressUnavailable => 6
    case GeneralError => 7
  }

  /** Reads an integer returned by the HAL back as a status. */
  function StatusOf(c: int): (r: Option<Status>)
    ensures r.None? <==> !(0 <= c <= 7)
  {
    match c
    case 0 => Some(Success)
    case 1 => Some(SentAndAckd)
    case 2 => Some(SentButNotAckd)
    case 3 => Some(SentFailed)
    case 4 => Some(InvalidState)
    case 5 => Some(InvalidArgument)
    case 6 => Some(LogicalAddressUnavailable)
    case 7 => Some(GeneralError)
    case _ => None
  }

  /** Every status has its own code, and the code reads back as that status. */
  lemma CodeRoundTrip(st: Status)
    ensures StatusOf(Code(st)) == Some(st)
  {
  }

  /** Every code in the enumeration's range names exactly one status. */
  lemma StatusOfRoundTrip(c: int)
    requires 0 <= c <= 7
    ensures StatusOf(c).Some? && Code(StatusOf(c).value) == c
  {
  }

  /** The three results a transmission can report. */
  type TxResult = st: Status | st.SentAndAckd? || st.SentButNotAckd? || st.SentFailed?
    witness SentFailed

  /** What the bus transceiver observed for one transmitted frame. */
  datatype BusOutcome =
    | Acked      // a follower acknowledged the frame
    | NotAcked   // the frame went out but nobody acknowledged it
    | Failed     // the frame could not be sent (collision, lost arbitration, ...)

  /** Classifies a bus outcome as the transmit result the HAL reports. */
  function Classify(outcome: BusOutcome): (r: TxResult)
    ensures r == SentAndAckd <==> outcome == Acked
    ensures r == SentButNotAckd <==> outcome == NotAcked
    ensures r == SentFailed <==> outcome == Failed
  {
    match outcome
    case Acked => SentAndAckd
    case NotAcked => SentButNotAckd
    case Failed => SentFailed
  }
}

=== FILE: frame_codec.dfy ===
/** The CEC packet format as the HAL's own block diagram lays it out, and
    the per-block framing the HAL adds on the wire.

    A packet crosses the HAL interface as a plain byte buffer: a header byte
    (destination in the high nibble, initiator in the low nibble) followed by
    the data block (an opcode and its operands; empty for a POLL). On the bus
    every byte travels as a block that also carries an EOM bit and an ACK bit,
    and a start bit precedes the header block; the HAL inserts those on
    transmit and removes them on receive. */
module FrameCodec {
  import opened CecTypes

  // ---------------------------------------------------------------------
  // Header block
  // ---------------------------------------------------------------------

  /** The header byte `dest << 4 | src`, as the HAL's block diagram draws
      it. Section 6.1 of the HDMI 1.4 CEC supplement, which the diagram
      cites, puts the initiator in the high nibble instead. */
  function HeaderByte(dest: LogicalAddress, src: LogicalAddress): (b: Byte)
    ensures b as int == dest * 16 + src
  {
    ((dest as bv8) << 4) | (src as bv8)
  }

  /** The destination nibble of a header byte. */
  function DestinationOf(b: Byte): (dest: LogicalAddress)
    ensures dest == b as int / 16
  {
    (b >> 4) as int
  }

  /** The initiator nibble of a header byte. */
  function InitiatorOf(b: Byte): (src: LogicalAddress)
    ensures src == b as int % 16
  {
    (b & 0x0F) as int
  }

  /** Decoding a header byte recovers both nibbles it was built from. */
  lemma HeaderRoundTrip(dest: LogicalAddress, src: LogicalAddress)
    ensures DestinationOf(HeaderByte(dest, src)) == dest
    ensures InitiatorOf(HeaderByte(dest, src)) == src
  {
  }

  /** Every byte is the header of exactly one (destination, initiator) pair. */
  lemma HeaderFromParts(b: Byte)
    ensures HeaderByte(DestinationOf(b), InitiatorOf(b)) == b
  {
  }

  // ---------------------------------------------------------------------
  // Packets
  // ---------------------------------------------------------------------

  /** A complete CEC packet: header block plus data block. The data block is
      empty for a POLL; otherwise its first byte is the opcode. */
  datatype Packet = Packet(dest: LogicalAddress, src: LogicalAddress, data: seq<Byte>)
  {
    predicate IsPoll() { |data| == 0 }

    function Opcode(): (op: Option<Byte>)
      ensures op.Some? <==> |data| >= 1
    {
      if |data| == 0 then None else Some(data[0])
    }

    function Operands(): (ops: seq<Byte>)
      ensures |data| >= 1 ==> data == [Opcode().value] + ops
      ensures |data| == 0 ==> ops == []
    {
      if |data| == 0 then [] else data[1..]
    }
  }

  /** The buffer the HAL's transmit and receive calls carry for a packet. */
  function Encode(p: Packet): (buf: seq<Byte>)
    ensures |buf| == 1 + |p.data|
    ensures DestinationOf(buf[0]) == p.dest && InitiatorOf(buf[0]) == p.src
    ensures buf[1..] == p.data
  {
    [HeaderByte(p.dest, p.src)] + p.data
  }

  /** Reads a buffer as a packet; a buffer without a header byte is no packet. */
  function Decode(buf: seq<Byte>): (r: Option<Packet>)
    ensures r.None? <==> |buf| == 0
  {
    if |buf| == 0 then None
    else Some(Packet(DestinationOf(buf[0]), InitiatorOf(buf[0]), buf[1..]))
  }

  lemma DecodeEncode(p: Packet)
    ensures Decode(Encode(p)) == Some(p)
  {
  }

  lemma EncodeDecode(buf: seq<Byte>)
    requires |buf| >= 1
    ensures Decode(buf).Some? && Encode(Decode(buf).value) == buf
  {
  }

  /** The POLL message used to probe a logical address: the address is both
      initiator and destination, and the data block is empty. */
  function PollMessage(addr: LogicalAddress): (buf: seq<Byte>)
    ensures Decode(buf) == Some(Packet(addr, addr, []))
    ensures Decode(buf).value.IsPoll() && Decode(buf).value.Opcode().None?
  {
    Encode(Packet(addr, addr, []))
  }

  // ---------------------------------------------------------------------
  // Wire blocks: start bit, EOM and ACK insertion and removal
  // ---------------------------------------------------------------------

  /** One header or data block as it travels on the bus: whether the start
      bit precedes it (it does for a header block only), the eight
      information bits, the end-of-message bit and the acknowledge bit. */
  datatype Block = Block(start: bv1, data: Byte, eom: bv1, ack: bv1)

  /** Whether a block sequence is exactly one complete message: at least one
      block, the start bit before the first block and no other, and EOM on
      the last block and on no other. */
  predicate IsCompleteFrame(blocks: seq<Block>)
  {
    && |blocks| >= 1
    && blocks[0].start == 1
    && (forall j :: 1 <= j < |blocks| ==> blocks[j].start == 0)
    && blocks[|blocks| - 1].eom == 1
    && (forall j :: 0 <= j < |blocks| - 1 ==> blocks[j].eom == 0)
  }

  /** The blocks for `buf`, the first one preceded by a start bit when
      `start` is 1. */
  function FrameBlocks(buf: seq<Byte>, start: bv1): (blocks: seq<Block>)
    ensures |blocks| == |buf|
    ensures forall i :: 0 <= i < |buf| ==> blocks[i].data == buf[i]
    ensures forall i :: 0 <= i < |buf| ==> (blocks[i].start == 1 <==> i == 0 && start == 1)
    ensures forall i :: 0 <= i < |buf| ==> (blocks[i].eom == 1 <==> i == |buf| - 1)
    ensures forall i :: 0 <= i < |buf| ==> blocks[i].ack == 1
  {
    if |buf| == 0 then []
    else [Block(start, buf[0], if |buf| == 1 then 1 else 0, 1)] + FrameBlocks(buf[1..], 0)
  }

  /** Transmit framing: one block per byte, the start bit before the header
      block only, EOM set on the last block only, and the ACK bit sent as 1,
      which a follower overrides to acknowledge. */
  function Frame(buf: seq<Byte>): (blocks: seq<Block>)
    ensures |blocks| == |buf|
    ensures forall i :: 0 <= i < |buf| ==> blocks[i].data == buf[i]
    ensures forall i :: 0 <= i < |buf| ==> (blocks[i].start == 1 <==> i == 0)
    ensures forall i :: 0 <= i < |buf| ==> (blocks[i].eom == 1 <==> i == |buf| - 1)
    ensures forall i :: 0 <= i < |buf| ==> blocks[i].ack == 1
  {
    FrameBlocks(buf, 1)
  }

  /** Receive deframing: drops the start, EOM and ACK bits of every block and
      keeps every information byte, whatever those bits were. */
  function Strip(blocks: seq<Block>): (buf: seq<Byte>)
    ensures |buf| == |blocks|
    ensures forall i :: 0 <= i < |blocks| ==> buf[i] == blocks[i].data
  {
    if |blocks| == 0 then [] else [blocks[0].data] + Strip(blocks[1..])
  }

  /** Framing a buffer and stripping the framing gives the buffer back. */
  lemma {:induction false} StripFrame(buf: seq<Byte>)
    ensures Strip(Frame(buf)) == buf
  {
    assert forall i :: 0 <= i < |buf| ==> Strip(Frame(buf))[i] == buf[i];
  }

  /** The transmit framing of a buffer is one complete message exactly when
      the buffer holds at least the header byte. */
  lemma FrameIsComplete(buf: seq<Byte>)
    ensures IsCompleteFrame(Frame(buf)) <==> |buf| >= 1
  {
  }

  /** Receives one message: accepted only when it is one complete frame no
      longer than the bus's maximum frame length, and then delivered without
      its start/EOM/ACK bits. */
  function Reassemble(blocks: seq<Block>, maxLen: nat): (r: Option<seq<Byte>>)
    ensures r.Some? <==> IsCompleteFrame(blocks) && |blocks| <= maxLen
    ensures r.Some? ==> |r.value| == |blocks|
    ensures r.Some? ==> forall i :: 0 <= i < |blocks| ==> r.value[i] == blocks[i].data
  {
    if IsCompleteFrame(blocks) && |blocks| <= maxLen then Some(Strip(blocks)) else None
  }

  /** Transmit framing followed by reassembly returns the buffer exactly when
      it is a non-empty buffer within the maximum frame length. */
  lemma {:induction false} ReassembleFrame(buf: seq<Byte>, maxLen: nat)
    ensures Reassemble(Frame(buf), maxLen) == Some(buf) <==> 1 <= |buf| <= maxLen
    ensures Reassemble(Frame(buf), maxLen).None? <==> !(1 <= |buf| <= maxLen)
  {
    StripFrame(buf);
  }

  /** What a receiver sees of a transmitted stream: the same start bits,
      information bytes and EOM bits; only the ACK bits may differ, since a
      follower drives the ACK bit low to acknowledge a block. */
  predicate SameButAck(received: seq<Block>, sent: seq<Block>)
  {
    && |received| == |sent|
    && forall i :: 0 <= i < |sent| ==>
      received[i].start == sent[i].start && received[i].data == sent[i].data && received[i].eom == sent[i].eom
  }

  /** The stream as a receiver sees it when a follower acknowledges every
      block: each ACK bit driven low, everything else as sent. */
  function Acknowledged(sent: seq<Block>): (received: seq<Block>)
    ensures SameButAck(received, sent)
    ensures forall i :: 0 <= i < |received| ==> received[i].ack == 0
  {
    seq(|sent|, i requires 0 <= i < |sent| => sent[i].(ack := 0))
  }

  /** Reassembly ignores the ACK bits. */
  lemma ReassembleIgnoresAck(received: seq<Block>, sent: seq<Block>, maxLen: nat)
    requires SameButAck(received, sent)
    ensures Reassemble(received, maxLen) == Reassemble(sent, maxLen)
  {
    if Reassemble(sent, maxLen).Some? {
      assert Reassemble(received, maxLen).value == Reassemble(sent, maxLen).value;
    }
  }

  /** A packet crosses the bus intact: whichever ACK bits the followers
      drove, destination, initiator, opcode and operands all come back, with
      no start/EOM/ACK bits left in the buffer. */
  lemma PacketOverTheBus(p: Packet, received: seq<Block>, maxLen: nat)
    requires 1 + |p.data| <= maxLen
    requires SameButAck(received, Frame(Encode(p)))
    ensures Reassemble(received, maxLen).Some?
    ensures Decode(Reassemble(received, maxLen).value) == Some(p)
    ensures var q := Decode(Reassemble(received, maxLen).value).value;
      q.Opcode() == p.Opcode() && q.Operands() == p.Operands()
  {
    ReassembleIgnoresAck(received, Frame(Encode(p)), maxLen);
    ReassembleFrame(Encode(p), maxLen);
    DecodeEncode(p);
  }

  // ---------------------------------------------------------------------
  // Splitting a stream of received blocks into messages
  // ---------------------------------------------------------------------

  /** The length of the run of blocks that begins the stream: it ends with
      the first EOM, or just before the next start bit, or with the stream,
      whichever comes first. */
  function RunLength(stream: seq<Block>): (n: nat)
    requires |stream| >= 1
    ensures 1 <= n <= |stream|
    ensures forall j :: 1 <= j < n ==> stream[j].start == 0
    ensures forall j :: 0 <= j < n - 1 ==> stream[j].eom == 0
    ensures n == |stream| || stream[n].start == 1 || stream[n - 1].eom == 1
  {
    if stream[0].eom == 1 || |stream| == 1 || stream[1].start == 1 then 1
    else 1 + RunLength(stream[1..])
  }

  /** A stream that is one complete frame is a single run. */
  lemma WholeFrameIsOneRun(stream: seq<Block>)
    requires |stream| >= 1
    ensures IsCompleteFrame(stream) ==> RunLength(stream) == |stream|
    ensures IsCompleteFrame(stream) ==> stream[..RunLength(stream)] == stream && stream[RunLength(stream)..] == []
  {
  }

  /** `part` occurs in `stream` as consecutive blocks from position `i`. */
  predicate SegmentAt(stream: seq<Block>, part: seq<Block>, i: int)
  {
    0 <= i <= |stream| - |part| && stream[i..i + |part|] == part
  }

  /** `part` occurs in `stream` as consecutive blocks. */
  predicate SegmentOf(stream: seq<Block>, part: seq<Block>)
  {
    exists i :: 0 <= i <= |stream| && SegmentAt(stream, part, i)
  }

  /** A segment of a suffix is a segment of the whole stream. */
  lemma SegmentsOfSuffix(stream: seq<Block>, n: nat, parts: seq<seq<Block>>)
    requires n <= |stream|
    requires forall m :: 0 <= m < |parts| ==> SegmentOf(stream[n..], parts[m])
    ensures forall m :: 0 <= m < |parts| ==> SegmentOf(stream, parts[m])
  {
    forall m | 0 <= m < |parts|
      ensures SegmentOf(stream, parts[m])
    {
      var suffix := stream[n..];
      assert SegmentOf(suffix, parts[m]);
      var i :| 0 <= i <= |suffix| && SegmentAt(suffix, parts[m], i);
      assert suffix[i..i + |parts[m]|] == parts[m];
      assert stream[n + i..n + i + |parts[m]|] == suffix[i..i + |parts[m]|];
      assert SegmentAt(stream, parts[m], n + i);
    }
  }

  /** Without any EOM, neither the head run nor the rest holds one. */
  lemma NoEomSplits(stream: seq<Block>, n: nat)
    requires 1 <= n <= |stream|
    ensures (forall j :: 0 <= j < |stream| ==> stream[j].eom == 0) ==>
      !IsCompleteFrame(stream[..n]) && forall j :: 0 <= j < |stream[n..]| ==> stream[n..][j].eom == 0
  {
    if forall j :: 0 <= j < |stream| ==> stream[j].eom == 0 {
      assert stream[..n][n - 1] == stream[n - 1];
      forall j | 0 <= j < |stream[n..]|
        ensures stream[n..][j].eom == 0
      {
        assert stream[n..][j] == stream[n + j];
      }
    }
  }

  /** A complete frame at the head of a stream, followed by complete frames
      that occur in the stream, gives complete frames that occur in it. */
  lemma ConsSegment(stream: seq<Block>, run: seq<Block>, rest: seq<seq<Block>>)
    requires IsCompleteFrame(run) && |run| <= |stream| && stream[..|run|] == run
    requires forall m :: 0 <= m < |rest| ==> IsCompleteFrame(rest[m]) && SegmentOf(stream, rest[m])
    ensures forall m :: 0 <= m < |[run] + rest| ==>
      IsCompleteFrame(([run] + rest)[m]) && SegmentOf(stream, ([run] + rest)[m])
  {
    assert SegmentAt(stream, run, 0);
    forall m | 0 <= m < |[run] + rest|
      ensures IsCompleteFrame(([run] + rest)[m]) && SegmentOf(stream, ([run] + rest)[m])
    {
      if m > 0 {
        assert ([run] + rest)[m] == rest[m - 1];
      }
    }
  }

  /** Cuts a stream of blocks into messages. Each run of blocks that follows
      a start bit and reaches its EOM before the next start bit is one
      message. A run cut short (the initiator stopped before EOM, so the
      next start bit or the end of the stream came first) is a truncated
      frame and is discarded, as are stray blocks that follow no start bit. */
  function Messages(stream: seq<Block>): (msgs: seq<seq<Block>>)
    ensures forall m :: 0 <= m < |msgs| ==> IsCompleteFrame(msgs[m]) && SegmentOf(stream, msgs[m])
    ensures IsCompleteFrame(stream) ==> msgs == [stream]
    ensures (forall j :: 0 <= j < |stream| ==> stream[j].eom == 0) ==> msgs == []
    decreases |stream|
  {
    if |stream| == 0 then []
    else
      var n := RunLength(stream);
      var run := stream[..n];
      var rest := Messages(stream[n..]);
      SegmentsOfSuffix(stream, n, rest);
      WholeFrameIsOneRun(stream);
      assert IsCompleteFrame(stream) ==> run == stream && rest == Messages([]);
      NoEomSplits(stream, n);
      if IsCompleteFrame(run) then
        ConsSegment(stream, run, rest);
        [run] + rest
      else rest
  }

  /** The blocks a sequence of buffers occupies when sent back to back. */
  function FrameAll(bufs: seq<seq<Byte>>): (stream: seq<Block>)
  {
    if |bufs| == 0 then [] else Frame(bufs[0]) + FrameAll(bufs[1..])
  }

  /** Every buffer in the sequence holds at least a header byte. */
  predicate AllNonEmpty(bufs: seq<seq<Byte>>)
  {
    forall i :: 0 <= i < |bufs| ==> |bufs[i]| >= 1
  }

  /** A complete frame at the head of a stream is received as one message,
      whatever follows it. */
  lemma {:induction false} FrameThenRest(buf: seq<Byte>, rest: seq<Block>)
    requires |buf| >= 1
    ensures Messages(Frame(buf) + rest) == [Frame(buf)] + Messages(rest)
  {
    var s := Frame(buf) + rest;
    assert forall j :: 0 <= j < |buf| ==> s[j] == Frame(buf)[j];
    assert s[|buf| - 1].eom == 1;
    assert forall j :: 1 <= j < |buf| ==> s[j].start == 0;
    assert forall j :: 0 <= j < |buf| - 1 ==> s[j].eom == 0;
    var n := RunLength(s);
    assert n == |buf|;
    assert s[..n] == Frame(buf);
    assert s[n..] == rest;
  }

  /** Messages sent back to back are received as the same messages, one per
      buffer, in order. */
  lemma {:induction false} MessagesOfFrameAll(bufs: seq<seq<Byte>>)
    requires AllNonEmpty(bufs)
    ensures |Messages(FrameAll(bufs))| == |bufs|
    ensures forall i :: 0 <= i < |bufs| ==> Messages(FrameAll(bufs))[i] == Frame(bufs[i])
  {
    if |bufs| > 0 {
      FrameThenRest(bufs[0], FrameAll(bufs[1..]));
      MessagesOfFrameAll(bufs[1..]);
    }
  }

  /** A run of blocks cut short before its EOM block. */
  predicate CutShort(run: seq<Block>)
  {
    forall j :: 0 <= j < |run| ==> run[j].eom == 0
  }

  /** Runs cut short before a start bit are discarded and leave what follows
      untouched. */
  lemma {:induction false} CutShortDropped(junk: seq<Block>, rest: seq<Block>)
    requires CutShort(junk)
    requires |rest| == 0 || rest[0].start == 1
    ensures Messages(junk + rest) == Messages(rest)
    decreases |junk|
  {
    var s := junk + rest;
    if |junk| == 0 {
      assert s == rest;
    } else {
      var n := RunLength(s);
      if |rest| > 0 {
        assert s[|junk|] == rest[0];
      }
      assert n <= |junk|;
      assert s[n - 1] == junk[n - 1];
      assert !IsCompleteFrame(s[..n]);
      assert s[n..] == junk[n..] + rest;
      CutShortDropped(junk[n..], rest);
    }
  }

  /** The blocks on the bus when every buffer is sent complete, each one
      after a transmission of its own that was cut short. */
  function WithAborted(aborted: seq<seq<Block>>, bufs: seq<seq<Byte>>): (stream: seq<Block>)
    requires |aborted| == |bufs|
  {
    if |bufs| == 0 then [] else aborted[0] + (Frame(bufs[0]) + WithAborted(aborted[1..], bufs[1..]))
  }

  /** Complete frames are received intact whatever truncated transmissions
      come before them: the truncated ones are discarded, and the complete
      ones come out one message per buffer, in order. */
  lemma {:induction false} MessagesWithAborted(aborted: seq<seq<Block>>, bufs: seq<seq<Byte>>)
    requires AllNonEmpty(bufs)
    requires |aborted| == |bufs|
    requires forall i :: 0 <= i < |aborted| ==> CutShort(aborted[i])
    ensures |Messages(WithAborted(aborted, bufs))| == |bufs|
    ensures forall i :: 0 <= i < |bufs| ==> Messages(WithAborted(aborted, bufs))[i] == Frame(bufs[i])
  {
    if |bufs| > 0 {
      var tail := WithAborted(aborted[1..], bufs[1..]);
      assert (Frame(bufs[0]) + tail)[0] == Frame(bufs[0])[0];
      CutShortDropped(aborted[0], Frame(bufs[0]) + tail);
      FrameThenRest(bufs[0], tail);
      MessagesWithAborted(aborted[1..], bufs[1..]);
    }
  }

  /** The run at the head of a stream is the same whatever the ACK bits are. */
  lemma {:induction false} RunLengthIgnoresAck(received: seq<Block>, sent: seq<Block>)
    requires |sent| >= 1
    requires SameButAck(received, sent)
    ensures RunLength(received) == RunLength(sent)
  {
    if !(sent[0].eom == 1 || |sent| == 1 || sent[1].start == 1) {
      RunLengthIgnoresAck(received[1..], sent[1..]);
    }
  }

  /** Whether a run is a complete frame does not depend on its ACK bits. */
  lemma CompleteIgnoresAck(received: seq<Block>, sent: seq<Block>)
    requires SameButAck(received, sent)
    ensures IsCompleteFrame(received) <==> IsCompleteFrame(sent)
  {
  }

  /** Matching streams match on every prefix and suffix. */
  lemma SplitSameButAck(received: seq<Block>, sent: seq<Block>, n: nat)
    requires SameButAck(received, sent)
    requires n <= |sent|
    ensures SameButAck(received[..n], sent[..n])
    ensures SameButAck(received[n..], sent[n..])
  {
  }

  /** Cutting into messages ignores the ACK bits: the received stream falls
      into as many messages as the sent one, each the same but for its ACK
      bits. */
  lemma {:induction false} MessagesIgnoreAck(received: seq<Block>, sent: seq<Block>)
    requires SameButAck(received, sent)
    ensures |Messages(received)| == |Messages(sent)|
    ensures forall m :: 0 <= m < |Messages(sent)| ==> SameButAck(Messages(received)[m], Messages(sent)[m])
    decreases |sent|
  {
    if |sent| > 0 {
      RunLengthIgnoresAck(received, sent);
      var n := RunLength(sent);
      SplitSameButAck(received, sent, n);
      CompleteIgnoresAck(received[..n], sent[..n]);
      MessagesIgnoreAck(received[n..], sent[n..]);
      var restR, restS := Messages(received[n..]), Messages(sent[n..]);
      if IsCompleteFrame(sent[..n]) {
        assert Messages(received) == [received[..n]] + restR;
        assert Messages(sent) == [sent[..n]] + restS;
      } else {
        assert Messages(received) == restR;
        assert Messages(sent) == restS;
      }
    }
  }

  /** Packets sent on the bus, each possibly after a truncated transmission,
      and acknowledged in any way, are received as one message per packet,
      in order, each the packet's framing up to its ACK bits. */
  lemma {:induction false} MessagesOfReceived(received: seq<Block>, aborted: seq<seq<Block>>, bufs: seq<seq<Byte>>)
    requires AllNonEmpty(bufs)
    requires |aborted| == |bufs|
    requires forall i :: 0 <= i < |aborted| ==> CutShort(aborted[i])
    requires SameButAck(received, WithAborted(aborted, bufs))
    ensures |Messages(received)| == |bufs|
    ensures forall i :: 0 <= i < |bufs| ==> SameButAck(Messages(received)[i], Frame(bufs[i]))
  {
    MessagesWithAborted(aborted, bufs);
    MessagesIgnoreAck(received, WithAborted(aborted, bufs));
  }
}

=== FILE: physical_address.dfy ===
/** The integer form in which HdmiCecGetPhysicalAddress reports the physical
    address.

    A physical address a.b.c.d is four nibbles. On the bus it travels as two
    bytes, `hi = a << 4 | b` and `lo = c << 4 | d`. The HAL spreads the four
    nibbles over the four bytes of an unsigned 32-bit integer, one nibble in
    the low half of each byte:
      ((hi & 0xF0) << 20) | ((hi & 0x0F) << 16) | ((lo & 0xF0) << 4) | (lo & 0x0F). */
module PhysicalAddress {
  import opened CecTypes

  /** The unsigned 32-bit integer the HAL writes to `*physicalAddress`. */
  type Packed = bv32

  /** Byte `k` (0 = least significant) of a packed address. */
  function ByteAt(r: Packed, k: bv32): Byte
    requires k < 4
  {
    ((r >> (8 * k)) & 0xFF) as bv8
  }

  /** The packed form only ever uses the low nibble of each byte. */
  predicate WellFormed(r: Packed)
  {
    r & 0xF0F0_F0F0 == 0
  }

  /** Packs the two bus bytes of a physical address. */
  function Pack(hi: Byte, lo: Byte): (r: Packed)
    ensures WellFormed(r)
    ensures ByteAt(r, 3) == hi >> 4 && ByteAt(r, 2) == hi & 0x0F
    ensures ByteAt(r, 1) == lo >> 4 && ByteAt(r, 0) == lo & 0x0F
  {
    var h := hi as bv32;
    var l := lo as bv32;
    ((h & 0xF0) << 20) | ((h & 0x0F) << 16) | ((l & 0xF0) << 4) | (l & 0x0F)
  }

  /** Recovers the two bus bytes from a packed address. */
  function Unpack(r: Packed): (bytes: (Byte, Byte))
    ensures bytes.0 >> 4 == ByteAt(r, 3) & 0x0F && bytes.0 & 0x0F == ByteAt(r, 2) & 0x0F
    ensures bytes.1 >> 4 == ByteAt(r, 1) & 0x0F && bytes.1 & 0x0F == ByteAt(r, 0) & 0x0F
  {
    ((((r >> 20) & 0xF0) | ((r >> 16) & 0x0F)) as bv8,
     (((r >> 4) & 0xF0) | (r & 0x0F)) as bv8)
  }

  /** Packing loses nothing: the two bytes come back unchanged. */
  lemma UnpackPack(hi: Byte, lo: Byte)
    ensures Unpack(Pack(hi, lo)) == (hi, lo)
  {
  }

  /** Every well-formed packed value is the packing of some pair of bytes. */
  lemma PackUnpack(r: Packed)
    requires WellFormed(r)
    ensures Pack(Unpack(r).0, Unpack(r).1) == r
  {
  }

  /** Different addresses never share a packed form. */
  lemma PackInjective(hi: Byte, lo: Byte, hi': Byte, lo': Byte)
    requires Pack(hi, lo) == Pack(hi', lo')
    ensures hi == hi' && lo == lo'
  {
    UnpackPack(hi, lo);
    UnpackPack(hi', lo');
  }

  /** The packing of the operands 0x04, 0x04 used as an example in the
      header: its nibbles read 0.4.0.4, not 4.4.4.4. */
  lemma ExampleAsWritten()
    ensures Pack(0x04, 0x04) == 0x0004_0004
    ensures ByteAt(Pack(0x04, 0x04), 3) == 0 && ByteAt(Pack(0x04, 0x04), 1) == 0
  {
  }

  /** The address 4.4.4.4 travels as the bytes 0x44, 0x44, and packs with
      a 4 in every byte. */
  lemma ExampleCorrected()
    ensures Pack(0x44, 0x44) == 0x0404_0404
    ensures forall k: bv32 :: k < 4 ==> ByteAt(Pack(0x44, 0x44), k) == 4
  {
  }
}

=== FILE: receive.dfy ===
/** Delivery of received packets to the registered receive callback.

    Once opened, the instance forwards every broadcast packet and every
    packet sent to one of its claimed logical addresses, and nothing else.
    The blocks arriving from the bus are cut into messages, each running
    from a start bit to its EOM; a frame cut short before its EOM is
    discarded. Each message loses its start/EOM/ACK bits, and every accepted
    message becomes one callback invocation carrying exactly that one
    packet. */
module Receive {
  import opened CecTypes
  import opened FrameCodec
  import opened Session

  /** Whether the instance forwards a packet addressed to `dest`. */
  predicate Accepts(s: State, dest: LogicalAddress)
  {
    s.Opened? && (dest == Broadcast || dest in s.claimed)
  }

  /** A received buffer the instance forwards: a whole packet within the
      maximum frame length, addressed to the broadcast address or to one of
      the instance's claimed addresses. */
  predicate Deliverable(s: State, buf: seq<Byte>, maxLen: nat)
  {
    1 <= |buf| <= maxLen && Accepts(s, DestinationOf(buf[0]))
  }

  /** `buf` is what one of the received messages reassembles to. */
  predicate OneOf(msgs: seq<seq<Block>>, maxLen: nat, buf: seq<Byte>)
  {
    exists m :: 0 <= m < |msgs| && Reassemble(msgs[m], maxLen) == Some(buf)
  }

  /** The buffers the instance forwards from a sequence of received
      messages, in arrival order. Incomplete or oversized messages are bus
      noise and are dropped silently. */
  function Delivered(s: State, msgs: seq<seq<Block>>, maxLen: nat): (bufs: seq<seq<Byte>>)
    ensures |bufs| <= |msgs|
    ensures forall i :: 0 <= i < |bufs| ==> Deliverable(s, bufs[i], maxLen)
    ensures forall i :: 0 <= i < |bufs| ==> OneOf(msgs, maxLen, bufs[i])
  {
    if |msgs| == 0 then []
    else
      var rest := Delivered(s, msgs[1..], maxLen);
      match Reassemble(msgs[0], maxLen)
      case Some(buf) => if Accepts(s, DestinationOf(buf[0])) then [buf] + rest else rest
      case None => rest
  }

  /** One invocation of the receive callback: (handle, data, buf, len). */
  datatype RxCall = RxCall(fn: nat, data: nat, handle: Handle, buf: seq<Byte>)

  /** The receive-callback invocations a stream of blocks from the bus
      causes. With no receive callback registered nothing is invoked. */
  function Dispatch(s: State, stream: seq<Block>, maxLen: nat): (calls: seq<RxCall>)
    ensures s.Closed? || s.rx.Disabled? ==> calls == []
    ensures forall i :: 0 <= i < |calls| ==>
      s.Opened? && s.rx.Registered? && calls[i].fn == s.rx.fn && calls[i].data == s.rx.data
      && calls[i].handle == s.handle && Deliverable(s, calls[i].buf, maxLen)
    ensures forall i :: 0 <= i < |calls| ==> OneOf(Messages(stream), maxLen, calls[i].buf)
  {
    if s.Closed? || s.rx.Disabled? then []
    else
      var msgs := Messages(stream);
      var bufs := Delivered(s, msgs, maxLen);
      var invocations := seq(|bufs|, i requires 0 <= i < |bufs| => RxCall(s.rx.fn, s.rx.data, s.handle, bufs[i]));
      assert forall i :: 0 <= i < |invocations| ==> invocations[i].buf == bufs[i];
      invocations
  }

  /** The buffers carried by a sequence of callback invocations. */
  function Buffers(calls: seq<RxCall>): (bufs: seq<seq<Byte>>)
    ensures |bufs| == |calls|
    ensures forall i :: 0 <= i < |calls| ==> bufs[i] == calls[i].buf
  {
    seq(|calls|, i requires 0 <= i < |calls| => calls[i].buf)
  }

  /** Reference definition: the packets of `bufs` the instance should
      forward, in order. */
  function Wanted(s: State, bufs: seq<seq<Byte>>, maxLen: nat): seq<seq<Byte>>
  {
    if |bufs| == 0 then []
    else if Deliverable(s, bufs[0], maxLen) then [bufs[0]] + Wanted(s, bufs[1..], maxLen)
    else Wanted(s, bufs[1..], maxLen)
  }

  /** Received messages that are the frames of `bufs`, whatever ACK bits the
      followers drove, deliver exactly the wanted packets of `bufs`. */
  lemma {:induction false} DeliveredOfFrames(s: State, bufs: seq<seq<Byte>>, msgs: seq<seq<Block>>, maxLen: nat)
    requires AllNonEmpty(bufs)
    requires |msgs| == |bufs|
    requires forall i :: 0 <= i < |bufs| ==> SameButAck(msgs[i], Frame(bufs[i]))
    ensures Delivered(s, msgs, maxLen) == Wanted(s, bufs, maxLen)
  {
    if |bufs| > 0 {
      ReassembleIgnoresAck(msgs[0], Frame(bufs[0]), maxLen);
      ReassembleFrame(bufs[0], maxLen);
      DeliveredOfFrames(s, bufs[1..], msgs[1..], maxLen);
    }
  }

  /** Packets sent on the bus reach the receive callback one invocation per
      packet, in order, and exactly the ones addressed to the broadcast
      address or to a claimed address. This holds whichever blocks the
      followers (this instance among them) acknowledged, and whatever
      truncated transmissions came before each packet. */
  lemma {:induction false} DispatchOfSentPackets(s: State, bufs: seq<seq<Byte>>, aborted: seq<seq<Block>>, received: seq<Block>, maxLen: nat)
    requires AllNonEmpty(bufs)
    requires |aborted| == |bufs|
    requires forall i :: 0 <= i < |aborted| ==> CutShort(aborted[i])
    requires SameButAck(received, WithAborted(aborted, bufs))
    requires s.Opened? && s.rx.Registered?
    ensures Buffers(Dispatch(s, received, maxLen)) == Wanted(s, bufs, maxLen)
  {
    MessagesOfReceived(received, aborted, bufs);
    DeliveredOfFrames(s, bufs, Messages(received), maxLen);
  }

  /** A packet sent to a claimed address, which this instance acknowledges
      block by block, reaches the receive callback exactly once, intact. */
  lemma {:induction false} AcknowledgedPacketDelivered(s: State, p: Packet, maxLen: nat)
    requires s.Opened? && s.rx.Registered? && p.dest in s.claimed
    requires 1 + |p.data| <= maxLen
    ensures Buffers(Dispatch(s, Acknowledged(Frame(Encode(p))), maxLen)) == [Encode(p)]
  {
    assert WithAborted([[]], [Encode(p)]) == Frame(Encode(p));
    DispatchOfSentPackets(s, [Encode(p)], [[]], Acknowledged(Frame(Encode(p))), maxLen);
  }

  /** A broadcast that arrives complete after a transmission cut short
      before its EOM block reaches the receive callback alone and intact,
      even when no logical address is claimed; the truncated frame is
      discarded. */
  lemma {:induction false} BroadcastAfterTruncated(s: State, maxLen: nat)
    requires s.Opened? && s.rx.Registered?
    requires maxLen >= 2
    ensures Buffers(Dispatch(s, [Block(1, 0x04, 0, 1)] + Frame([0xF4, 0x36]), maxLen)) == [[0xF4, 0x36]]
  {
    var stream := [Block(1, 0x04, 0, 1)] + Frame([0xF4, 0x36]);
    assert WithAborted([[Block(1, 0x04, 0, 1)]], [[0xF4, 0x36]]) == stream;
    DispatchOfSentPackets(s, [[0xF4, 0x36]], [[Block(1, 0x04, 0, 1)]], stream, maxLen);
  }

  /** A truncated header and data block followed by the same broadcast sent
      complete: only the complete packet is delivered, and the truncated
      blocks are never glued onto it. */
  lemma {:induction false} TruncatedNotGlued(s: State, maxLen: nat)
    requires s.Opened? && s.rx.Registered?
    requires maxLen >= 4
    ensures Buffers(Dispatch(s, [Block(1, 0xF4, 0, 0), Block(0, 0x36, 0, 0)] + Frame([0xF4, 0x36]), maxLen))
      == [[0xF4, 0x36]]
  {
    var junk := [Block(1, 0xF4, 0, 0), Block(0, 0x36, 0, 0)];
    var stream := junk + Frame([0xF4, 0x36]);
    assert WithAborted([junk], [[0xF4, 0x36]]) == stream;
    DispatchOfSentPackets(s, [[0xF4, 0x36]], [junk], stream, maxLen);
  }

  /** With no logical address claimed only broadcast packets get through. */
  lemma OnlyBroadcastWhenUnclaimed(s: State, dest: LogicalAddress)
    requires s.Opened? && s.claimed == {}
    ensures Accepts(s, dest) <==> dest == Broadcast
  {
  }

  /** A packet addressed neither to the broadcast address nor to a claimed
      address never reaches the receive callback. */
  lemma UnclaimedNeverDelivered(s: State, stream: seq<Block>, maxLen: nat, dest: LogicalAddress)
    requires dest != Broadcast && (s.Opened? ==> dest !in s.claimed)
    ensures forall c :: c in Dispatch(s, stream, maxLen) ==> DestinationOf(c.buf[0]) != dest
  {
  }
}

=== FILE: session.dfy ===
/** The HAL instance as a state machine. Every API call is a pure transition
    from the current state to a status and a new state; whatever the bus or
    the platform decides (the ACK of a POLL, the outcome of a transmission,
    the handle and addresses found when opening) is an explicit parameter. */
module Session {
  import opened CecTypes
  import opened FrameCodec
  import PhysicalAddress

  /** A registered callback: the function pointer and the data handed back to
      it on every invocation. Both are opaque to the HAL. */
  datatype Callback = Disabled | Registered(fn: nat, data: nat)

  /** The callback a `(cbfunc, data)` pair installs; a null function pointer
      (0) disables the callback, and its data is then irrelevant. */
  function CallbackOf(fn: nat, data: nat): (cb: Callback)
    ensures cb.Disabled? <==> fn == 0
    ensures cb.Registered? ==> cb.fn == fn && cb.data == data
  {
    if fn == 0 then Disabled else Registered(fn, data)
  }

  /** The device the platform is, once opened: a sink, or a source that
      holds the logical address discovery gave it. */
  datatype Device = SinkDevice | SourceDevice(address: SourceAddress)

  /** A physical address in the packed form the HAL reports. */
  type PhysicalAddr = r: PhysicalAddress.Packed | PhysicalAddress.WellFormed(r) witness 0

  datatype State =
    | Closed(role: Role)
    | Opened(
        device: Device,
        handle: Handle,
        claimed: set<LogicalAddress>,
        physicalAddress: PhysicalAddr,
        rx: Callback,
        tx: Callback)

  function RoleOf(s: State): Role
  {
    match s
    case Closed(role) => role
    case Opened(device, _, _, _, _, _) => if device.SinkDevice? then Sink else Source
  }

  /** A call with this handle reaches an opened instance. */
  predicate Usable(s: State, handle: int)
  {
    s.Opened? && s.handle == handle
  }

  /** The status of a call that does not reach an opened instance. */
  function Rejection(s: State, handle: int): (st: Status)
    requires !Usable(s, handle)
    ensures st == InvalidState <==> s.Closed?
    ensures st == InvalidArgument <==> s.Opened?
  {
    if s.Closed? then InvalidState else InvalidArgument
  }

  /** The instance acknowledges a POLL sent to `addr` exactly while it holds
      `addr`. */
  predicate AcksPoll(s: State, addr: LogicalAddress)
  {
    s.Opened? && addr in s.claimed
  }

  datatype Reply = Reply(status: Status, state: State)

  // ---------------------------------------------------------------------
  // HdmiCecOpen / HdmiCecClose
  // ---------------------------------------------------------------------

  /** What the platform supplies while opening: the handle it allocates, the
      outcome of logical-address discovery (used by source devices only) and
      the two bus bytes of the physical address it found. */
  datatype Platform = Platform(handle: Handle, discovered: Option<int>, physHi: Byte, physLo: Byte)

  /** Discovery gave a source device an address it may use. */
  predicate DiscoverySucceeded(discovered: Option<int>)
  {
    discovered.Some? && 0x0 < discovered.value < 0xF
  }

  datatype OpenReply = OpenReply(status: Status, handle: Option<Handle>, state: State)

  /** HdmiCecOpen. `handleOut` is false when the caller passes a null handle
      pointer. Opening an opened instance succeeds and changes nothing. */
  function Open(s: State, handleOut: bool, platform: Platform): (r: OpenReply)
    ensures RoleOf(r.state) == RoleOf(s)
    ensures !handleOut ==> r.status == InvalidArgument
    ensures r.status == Success <==>
      handleOut && (s.Opened? || RoleOf(s) == Sink || DiscoverySucceeded(platform.discovered))
    ensures handleOut && s.Closed? && RoleOf(s) == Source && !DiscoverySucceeded(platform.discovered)
      ==> r.status == LogicalAddressUnavailable
    ensures r.status != Success ==> r.state == s && r.handle == None
    ensures r.status == Success ==> r.state.Opened? && r.handle == Some(r.state.handle)
    ensures s.Opened? && handleOut ==> r.state == s
    ensures s.Closed? && r.status == Success ==>
      && r.state.handle == platform.handle
      && r.state.rx == Disabled && r.state.tx == Disabled
      && r.state.physicalAddress == PhysicalAddress.Pack(platform.physHi, platform.physLo)
    ensures s.Closed? && r.status == Success && RoleOf(s) == Sink ==> r.state.claimed == {}
    ensures s.Closed? && r.status == Success && RoleOf(s) == Source ==>
      r.state.device.SourceDevice? && r.state.claimed == {r.state.device.address}
      && r.state.device.address == platform.discovered.value
  {
    if !handleOut then OpenReply(InvalidArgument, None, s)
    else if s.Opened? then OpenReply(Success, Some(s.handle), s)
    else
      var phys := PhysicalAddress.Pack(platform.physHi, platform.physLo);
      match s.role
      case Sink =>
        OpenReply(Success, Some(platform.handle),
          Opened(SinkDevice, platform.handle, {}, phys, Disabled, Disabled))
      case Source =>
        if DiscoverySucceeded(platform.discovered) then
          var a: SourceAddress := platform.discovered.value;
          OpenReply(Success, Some(platform.handle),
            Opened(SourceDevice(a), platform.handle, {a}, phys, Disabled, Disabled))
        else OpenReply(LogicalAddressUnavailable, None, s)
  }

  /** HdmiCecClose: always succeeds, releases every logical address and
      drops both callbacks. */
  function Close(s: State): (r: Reply)
    ensures r.status == Success
    ensures r.state.Closed? && RoleOf(r.state) == RoleOf(s)
  {
    Reply(Success, Closed(RoleOf(s)))
  }

  // ---------------------------------------------------------------------
  // Logical addresses
  // ---------------------------------------------------------------------

  datatype AddReply = AddReply(status: Status, state: State, poll: Option<seq<Byte>>)

  /** HdmiCecAddLogicalAddress: a sink claims 0x0 by sending a POLL to it and
      listening for an acknowledgement; `pollOutcome` is what the bus saw. */
  function AddLogicalAddress(s: State, handle: int, addr: int, pollOutcome: BusOutcome): (r: AddReply)
    ensures r.poll.Some? <==> Usable(s, handle) && RoleOf(s) == Sink && addr == SinkAddress
    ensures r.poll.Some? ==> Decode(r.poll.value) == Some(Packet(SinkAddress, SinkAddress, []))
    ensures r.poll.None? && s.Closed? ==> r.status == InvalidState
    ensures r.poll.None? && s.Opened? ==> r.status == InvalidArgument
    ensures r.status == Success <==> r.poll.Some? && pollOutcome == NotAcked
    ensures r.poll.Some? && pollOutcome == Acked ==> r.status == LogicalAddressUnavailable
    ensures r.poll.Some? && pollOutcome == Failed ==> r.status == SentFailed
    ensures r.status == Success ==> r.state == s.(claimed := s.claimed + {SinkAddress})
    ensures r.status != Success ==> r.state == s
  {
    if !Usable(s, handle) then AddReply(Rejection(s, handle), s, None)
    else if RoleOf(s) == Source || addr != SinkAddress then AddReply(InvalidArgument, s, None)
    else
      var poll := PollMessage(SinkAddress);
      match pollOutcome
      case NotAcked => AddReply(Success, s.(claimed := s.claimed + {SinkAddress}), Some(poll))
      case Acked => AddReply(LogicalAddressUnavailable, s, Some(poll))
      case Failed => AddReply(SentFailed, s, Some(poll))
  }

  /** HdmiCecRemoveLogicalAddress: a sink releases 0x0; releasing an
      address it does not hold succeeds too. */
  function RemoveLogicalAddress(s: State, handle: int, addr: int): (r: Reply)
    ensures r.status == Success <==> Usable(s, handle) && RoleOf(s) == Sink && addr == SinkAddress
    ensures r.status == Success ==> r.state == s.(claimed := s.claimed - {SinkAddress})
    ensures r.status == Success ==> !AcksPoll(r.state, SinkAddress)
    ensures r.status != Success ==> r.state == s
    ensures r.status != Success && s.Opened? ==> r.status == InvalidArgument
    ensures s.Closed? ==> r.status == InvalidState
  {
    if !Usable(s, handle) then Reply(Rejection(s, handle), s)
    else if RoleOf(s) == Source || addr != SinkAddress then Reply(InvalidArgument, s)
    else Reply(Success, s.(claimed := s.claimed - {SinkAddress}))
  }

  /** Every entry of the list is a logical address. */
  predicate AllInRange(addrs: seq<int>)
  {
    forall i :: 0 <= i < |addrs| ==> 0x0 <= addrs[i] <= 0xF
  }

  /** The set of addresses a list names. */
  function AddressSet(addrs: seq<int>): (claimed: set<LogicalAddress>)
    requires AllInRange(addrs)
    ensures forall a :: a in claimed <==> a in addrs
  {
    set i | 0 <= i < |addrs| :: addrs[i] as LogicalAddress
  }

  /** HdmiCecSetLogicalAddress (deprecated): replaces the whole set of
      claimed addresses, or changes nothing. `addrs` is None for a null list;
      `unavailable` are the addresses the platform cannot set. */
  function SetLogicalAddress(s: State, handle: int, addrs: Option<seq<int>>, unavailable: set<LogicalAddress>): (r: Reply)
    ensures r.status != Success ==> r.state == s
    ensures r.status == Success ==> s.Opened? && r.state.Opened? && r.state == s.(claimed := r.state.claimed)
    ensures r.status == Success ==>
      forall a :: a in r.state.claimed <==> addrs.Some? && a in addrs.value
    ensures Usable(s, handle) && addrs.None? ==> r.status == Success && r.state.claimed == {}
    ensures Usable(s, handle) && addrs.Some? ==>
      (r.status == Success <==>
        forall i :: 0 <= i < |addrs.value| ==> 0x0 <= addrs.value[i] <= 0xF && addrs.value[i] !in unavailable)
    ensures Usable(s, handle) && addrs.Some? && !AllInRange(addrs.value) ==> r.status == InvalidArgument
    ensures Usable(s, handle) && addrs.Some? && AllInRange(addrs.value)
      && (exists i :: 0 <= i < |addrs.value| && addrs.value[i] in unavailable)
      ==> r.status == LogicalAddressUnavailable
    ensures !Usable(s, handle) ==> r.status == Rejection(s, handle)
  {
    if !Usable(s, handle) then Reply(Rejection(s, handle), s)
    else if addrs.None? then Reply(Success, s.(claimed := {}))
    else if !AllInRange(addrs.value) then Reply(InvalidArgument, s)
    else
      var wanted := AddressSet(addrs.value);
      if exists i :: 0 <= i < |addrs.value| && addrs.value[i] in unavailable then
        Reply(LogicalAddressUnavailable, s)
      else Reply(Success, s.(claimed := wanted))
  }

  datatype AddressReply = AddressReply(status: Status, address: Option<LogicalAddress>)

  /** HdmiCecGetLogicalAddress. `out` is false for a null result pointer. */
  function GetLogicalAddress(s: State, handle: int, out: bool): (r: AddressReply)
    ensures r.status == Success <==> Usable(s, handle) && out
    ensures r.address.Some? <==> r.status == Success
    ensures r.status != Success && out ==> r.status == Rejection(s, handle)
    ensures !Usable(s, handle) ==> r.status == Rejection(s, handle)
    ensures Usable(s, handle) && !out ==> r.status == InvalidArgument
    ensures r.status == Success && RoleOf(s) == Sink ==>
      (r.address.value == Unregistered <==> SinkAddress !in s.claimed)
    ensures r.status == Success && RoleOf(s) == Sink ==>
      (r.address.value == SinkAddress <==> SinkAddress in s.claimed)
    ensures r.status == Success && RoleOf(s) == Source ==>
      0x0 < r.address.value < 0xF && r.address.value == s.device.address
  {
    if !Usable(s, handle) then AddressReply(Rejection(s, handle), None)
    else if !out then AddressReply(InvalidArgument, None)
    else
      match s.device
      case SinkDevice =>
        AddressReply(Success, Some(if SinkAddress in s.claimed then SinkAddress else Unregistered))
      case SourceDevice(a) => AddressReply(Success, Some(a))
  }

  /** HdmiCecGetPhysicalAddress: the address cached when the instance was
      opened. The call returns nothing, so a call that does not reach an
      opened instance leaves the output untouched (None). */
  function GetPhysicalAddress(s: State, handle: int): (r: Option<PhysicalAddr>)
    ensures r.Some? <==> Usable(s, handle)
    ensures r.Some? ==> r.value == s.physicalAddress
  {
    if Usable(s, handle) then Some(s.physicalAddress) else None
  }

  // ---------------------------------------------------------------------
  // Callbacks
  // ---------------------------------------------------------------------

  /** HdmiCecSetRxCallback: replaces the receive callback and its data. */
  function SetRxCallback(s: State, handle: int, fn: nat, data: nat): (r: Reply)
    ensures r.status == Success <==> Usable(s, handle)
    ensures r.status == Success ==> r.state == s.(rx := CallbackOf(fn, data))
    ensures r.status != Success ==> r.status == Rejection(s, handle) && r.state == s
  {
    if !Usable(s, handle) then Reply(Rejection(s, handle), s)
    else Reply(Success, s.(rx := CallbackOf(fn, data)))
  }

  /** HdmiCecSetTxCallback: replaces the transmit callback and its data. */
  function SetTxCallback(s: State, handle: int, fn: nat, data: nat): (r: Reply)
    ensures r.status == Success <==> Usable(s, handle)
    ensures r.status == Success ==> r.state == s.(tx := CallbackOf(fn, data))
    ensures r.status != Success ==> r.status == Rejection(s, handle) && r.state == s
  {
    if !Usable(s, handle) then Reply(Rejection(s, handle), s)
    else Reply(Success, s.(tx := CallbackOf(fn, data)))
  }

  // ---------------------------------------------------------------------
  // Transmission
  // ---------------------------------------------------------------------

  /** The packet is acceptable for transmission: at least the header byte,
      at most `maxLen` bytes. */
  predicate SendableLength(buf: seq<Byte>, maxLen: nat)
  {
    1 <= |buf| <= maxLen
  }

  datatype TxReply = TxReply(status: Status, result: Option<TxResult>, wire: seq<Block>)

  /** HdmiCecTx: frames the packet onto the bus and waits for the outcome.
      `resultOut` is false for a null result pointer; `maxLen` is the bus's
      maximum frame length and `bus` the outcome the transceiver reports. */
  function Transmit(s: State, handle: int, buf: seq<Byte>, resultOut: bool, maxLen: nat, bus: BusOutcome): (r: TxReply)
    ensures r.status == Success <==> Usable(s, handle) && resultOut && SendableLength(buf, maxLen)
    ensures r.status != Success ==>
      (r.status == InvalidState || r.status == InvalidArgument) && r.result == None && r.wire == []
    ensures !Usable(s, handle) ==> r.status == Rejection(s, handle)
    ensures Usable(s, handle) && r.status != Success ==> r.status == InvalidArgument
    ensures r.status == Success ==> r.result == Some(Classify(bus))
    ensures r.status == Success ==> Reassemble(r.wire, maxLen) == Some(buf)
  {
    if !Usable(s, handle) then TxReply(Rejection(s, handle), None, [])
    else if !resultOut || !SendableLength(buf, maxLen) then TxReply(InvalidArgument, None, [])
    else
      ReassembleFrame(buf, maxLen);
      TxReply(Success, Some(Classify(bus)), Frame(buf))
  }

  /** One invocation of the transmit callback: (handle, data, result). */
  datatype TxNotice = TxNotice(fn: nat, data: nat, handle: Handle, result: TxResult)

  datatype TxAsyncReply = TxAsyncReply(status: Status, wire: seq<Block>, notices: seq<TxNotice>)

  /** HdmiCecTxAsync: frames the packet onto the bus and returns at once;
      the outcome goes to the registered transmit callback, exactly once, or
      nowhere when no transmit callback is registered. */
  function TransmitAsync(s: State, handle: int, buf: seq<Byte>, maxLen: nat, bus: BusOutcome): (r: TxAsyncReply)
    ensures r.status == Success <==> Usable(s, handle) && SendableLength(buf, maxLen)
    ensures r.status != Success ==>
      (r.status == InvalidState || r.status == InvalidArgument) && r.wire == [] && r.notices == []
    ensures !Usable(s, handle) ==> r.status == Rejection(s, handle)
    ensures Usable(s, handle) && r.status != Success ==> r.status == InvalidArgument
    ensures r.status == Success ==> Reassemble(r.wire, maxLen) == Some(buf)
    ensures |r.notices| == (if r.status == Success && s.tx.Registered? then 1 else 0)
    ensures |r.notices| == 1 ==>
      r.notices[0] == TxNotice(s.tx.fn, s.tx.data, s.handle, Classify(bus))
  {
    if !Usable(s, handle) then TxAsyncReply(Rejection(s, handle), [], [])
    else if !SendableLength(buf, maxLen) then TxAsyncReply(InvalidArgument, [], [])
    else
      ReassembleFrame(buf, maxLen);
      var notices := match s.tx
        case Disabled => []
        case Registered(fn, data) => [TxNotice(fn, data, s.handle, Classify(bus))];
      TxAsyncReply(Success, Frame(buf), notices)
  }
}

=== FILE: session_properties.dfy ===
/** Properties that relate several HAL calls: idempotence of open, close and
    remove, what GetLogicalAddress reports after add and remove, callback
    replacement, and the end-to-end claim-then-transmit scenario. */
module SessionProperties {
  import opened CecTypes
  import opened FrameCodec
  import opened Session
  import opened Receive
  import PhysicalAddress

  /** Opening an opened instance succeeds and hands back the same handle. */
  lemma OpenIsIdempotent(s: State, p: Platform, p': Platform)
    requires Open(s, true, p).status == Success
    ensures Open(Open(s, true, p).state, true, p') == Open(s, true, p).(status := Success)
  {
  }

  /** Close succeeds every time; a second close changes nothing, and a
      closed instance holds no address and delivers nothing. */
  lemma CloseIsIdempotent(s: State, handle: int, stream: seq<Block>, maxLen: nat)
    ensures Close(Close(s).state) == Close(s)
    ensures Close(Close(s).state).status == Success
    ensures GetLogicalAddress(Close(s).state, handle, true).status == InvalidState
    ensures forall a: LogicalAddress :: !AcksPoll(Close(s).state, a)
    ensures Dispatch(Close(s).state, stream, maxLen) == []
  {
  }

  /** A sink that has just been opened holds no logical address. */
  lemma FreshSinkIsUnregistered(s: State, p: Platform)
    requires s.Closed? && s.role == Sink
    ensures Open(s, true, p).status == Success
    ensures GetLogicalAddress(Open(s, true, p).state, p.handle, true)
      == AddressReply(Success, Some(Unregistered))
  {
  }

  /** A source that opened successfully reports the address discovery gave
      it, which is neither 0x00 nor 0x0F. */
  lemma OpenedSourceReportsDiscovered(s: State, p: Platform)
    requires s.Closed? && s.role == Source && Open(s, true, p).status == Success
    ensures GetLogicalAddress(Open(s, true, p).state, p.handle, true)
      == AddressReply(Success, Some(p.discovered.value))
    ensures 0x00 < p.discovered.value < 0x0F
  {
  }

  /** After a successful add, the sink reports 0x0, acknowledges POLLs to
      0x0 and forwards packets addressed to 0x0. */
  lemma AddThenGet(s: State, handle: int)
    requires AddLogicalAddress(s, handle, SinkAddress, NotAcked).status == Success
    ensures var s' := AddLogicalAddress(s, handle, SinkAddress, NotAcked).state;
      && GetLogicalAddress(s', handle, true) == AddressReply(Success, Some(SinkAddress))
      && AcksPoll(s', SinkAddress)
      && Accepts(s', SinkAddress)
  {
  }

  /** Remove is idempotent: a second remove succeeds and changes nothing. */
  lemma RemoveIsIdempotent(s: State, handle: int)
    requires RemoveLogicalAddress(s, handle, SinkAddress).status == Success
    ensures var r := RemoveLogicalAddress(s, handle, SinkAddress);
      RemoveLogicalAddress(r.state, handle, SinkAddress) == r
  {
  }

  /** After a remove the sink reports 0x0F again, no longer acknowledges POLLs
      to 0x0 and no longer forwards packets addressed to 0x0. */
  lemma RemoveThenGet(s: State, handle: int)
    requires RemoveLogicalAddress(s, handle, SinkAddress).status == Success
    ensures var s' := RemoveLogicalAddress(s, handle, SinkAddress).state;
      && GetLogicalAddress(s', handle, true) == AddressReply(Success, Some(Unregistered))
      && !AcksPoll(s', SinkAddress)
      && !Accepts(s', SinkAddress)
  {
  }

  /** Add followed by remove leaves the instance as it was, except that it
      no longer holds 0x0. */
  lemma AddThenRemove(s: State, handle: int)
    requires AddLogicalAddress(s, handle, SinkAddress, NotAcked).status == Success
    ensures var s' := AddLogicalAddress(s, handle, SinkAddress, NotAcked).state;
      RemoveLogicalAddress(s', handle, SinkAddress).state == s.(claimed := s.claimed - {SinkAddress})
  {
  }

  /** When another device answers the POLL, nothing is claimed: the sink
      still reports what it reported before. */
  lemma AddUnavailableKeepsAddress(s: State, handle: int)
    requires Usable(s, handle) && RoleOf(s) == Sink
    ensures AddLogicalAddress(s, handle, SinkAddress, Acked).status == LogicalAddressUnavailable
    ensures GetLogicalAddress(AddLogicalAddress(s, handle, SinkAddress, Acked).state, handle, true)
      == GetLogicalAddress(s, handle, true)
  {
  }

  /** Source devices cannot add or remove addresses, whatever the value. */
  lemma SourceCannotClaim(s: State, handle: int, addr: int, o: BusOutcome)
    requires Usable(s, handle) && RoleOf(s) == Source
    ensures AddLogicalAddress(s, handle, addr, o) == AddReply(InvalidArgument, s, None)
    ensures RemoveLogicalAddress(s, handle, addr) == Reply(InvalidArgument, s)
  {
  }

  /** A null list clears the set: a sink then reports 0x0F and only
      broadcast packets get through. */
  lemma SetNullClears(s: State, handle: int, unavailable: set<LogicalAddress>, dest: LogicalAddress)
    requires Usable(s, handle) && RoleOf(s) == Sink
    ensures var s' := SetLogicalAddress(s, handle, None, unavailable).state;
      && GetLogicalAddress(s', handle, true) == AddressReply(Success, Some(Unregistered))
      && (Accepts(s', dest) <==> dest == Broadcast)
  {
  }

  /** The last registered receive callback wins. */
  lemma RxCallbackReplaces(s: State, handle: int, fn1: nat, d1: nat, fn2: nat, d2: nat)
    ensures SetRxCallback(SetRxCallback(s, handle, fn1, d1).state, handle, fn2, d2)
      == SetRxCallback(s, handle, fn2, d2)
  {
  }

  /** The last registered transmit callback wins. */
  lemma TxCallbackReplaces(s: State, handle: int, fn1: nat, d1: nat, fn2: nat, d2: nat)
    ensures SetTxCallback(SetTxCallback(s, handle, fn1, d1).state, handle, fn2, d2)
      == SetTxCallback(s, handle, fn2, d2)
  {
  }

  /** A null receive callback disables delivery altogether. */
  lemma NullRxCallbackDisables(s: State, handle: int, data: nat, stream: seq<Block>, maxLen: nat)
    requires Usable(s, handle)
    ensures Dispatch(SetRxCallback(s, handle, 0, data).state, stream, maxLen) == []
  {
  }

  /** A null transmit callback drops the asynchronous result. */
  lemma NullTxCallbackDropsResult(s: State, handle: int, data: nat, buf: seq<Byte>, maxLen: nat, bus: BusOutcome)
    requires Usable(s, handle)
    ensures TransmitAsync(SetTxCallback(s, handle, 0, data).state, handle, buf, maxLen, bus).notices == []
  {
  }

  /** The physical address found when opening is reported by
      HdmiCecGetPhysicalAddress and unpacks to the bytes seen on the bus. */
  lemma OpenThenPhysicalAddress(s: State, p: Platform)
    requires s.Closed? && Open(s, true, p).status == Success
    ensures var r := GetPhysicalAddress(Open(s, true, p).state, p.handle);
      r.Some? && PhysicalAddress.Unpack(r.value) == (p.physHi, p.physLo)
  {
  }

  /** A sink opens, claims 0x0 on a bus where nobody answers the POLL, and
      sends a packet from 0x0 that a follower acknowledges: every step
      succeeds and the transmit result is SENT_AND_ACKD. */
  lemma ClaimThenTransmit(s: State, p: Platform, data: seq<Byte>, maxLen: nat)
    requires s.Closed? && s.role == Sink
    requires 1 + |data| <= maxLen
    ensures var s1 := Open(s, true, p).state;
      var s2 := AddLogicalAddress(s1, p.handle, SinkAddress, NotAcked).state;
      var tx := Transmit(s2, p.handle, Encode(Packet(SinkAddress, SinkAddress, data)), true, maxLen, Acked);
      && tx.status == Success && tx.result.Some? && tx.result.value == SentAndAckd
      && Decode(Reassemble(tx.wire, maxLen).value) == Some(Packet(SinkAddress, SinkAddress, data))
  {
  }

  /** A sink opens and tries to claim 0x0 while another device holds it:
      the claim fails and the sink still holds nothing. */
  lemma ClaimWhileTaken(s: State, p: Platform)
    requires s.Closed? && s.role == Sink
    ensures var s1 := Open(s, true, p).state;
      var r := AddLogicalAddress(s1, p.handle, SinkAddress, Acked);
      && r.status == LogicalAddressUnavailable
      && r.state.claimed == {}
  {
  }
}
